=== FILE: README.md ===
# Rack and employee API core, modelled in Dafny

This project models the decision logic of six route handlers of the
`g3-webapp-back-2025` Next.js backend: a parts-rack inventory with
employee accounts. The HTTP, database and crypto layers are peeled away,
so each handler becomes a pure function from a request and the state of
the tables to a response and the new state.

- `SlotMove` (`POST /api/racks/move`) moves the part held in one slot of
  a rack into another slot. The move runs inside one BEGIN … COMMIT unit
  of work. It reads the source, reads the destination, then either
  UPDATEs an existing empty destination row or INSERTs a new one. It
  then clears the source and commits. Any thrown error rolls back. The
  status is chosen from the error's code and message.
- `Racks` (`/api/racks`) creates racks with a trimmed unique name and
  positive integer rows and cols. It looks racks up by id and lists them
  in id order.
- `Registration` (`POST /api/auth/register`) checks the required fields
  and refuses a duplicate user id. It coalesces the aliased notes and
  colour keys and normalises the colour code. It defaults the role and
  the line, then inserts the hashed password.
- `LoginRoute` (`POST /api/auth/login`) runs its checks in order. It
  dispatches on the `$2` prefix between bcrypt and plain-text
  comparison. Every credential failure gets one uniform 401, and the
  token carries claims from the row.
- `AuthMe` (`GET /api/auth/me`) parses the `Bearer ` header, then makes
  an ordered 401/500/200 decision.
- `EmployeeSearch` (`GET /api/employees`) builds a parameterised SELECT
  from the query string. It applies a whitelist of filters, numbers the
  placeholders `$1…$n`, and adds an optional WHERE and an optional
  ORDER BY.
- `EmployeeStore` is the `employees` table shared by the authentication
  routes. `JsValues` holds the JavaScript value semantics the handlers
  rely on:
  - null and undefined
  - truthiness
  - `??` and `||`
  - `Number.isInteger`
  - `startsWith`, `slice`, `includes`, and `trim` with the WhiteSpace and
    LineTerminator set of ECMA-262
- `AuthFlow` ties the routes together. A fresh registration can log in,
  and the token from that login identifies the same employee to
  `/api/auth/me`.

How each foreign part is represented:

- **Database.** A database failure in the move is a `Fault`: the
  statement that throws, and the error it throws. Rollback means the
  handler answers with the tables it started from.
- **bcrypt.** `bcrypt.hash` is a function parameter `hash`. `bcrypt.compare`
  is a parameter `compare` that can answer match, mismatch, or throw.
- **jsonwebtoken.** `jwt.verify` is a parameter `verify` that returns the
  payload, or None when it throws.
- **Environment.** `process.env.JWT_SECRET` is a parameter.
- **Auth DB errors.** A failing query in `/api/auth/me` is a boolean
  parameter.

## Model

| member | source | states |
|---|---|---|
| JsValues.Trim | g3-webapp-back-2025/src/app/api/racks/route.js:43 | `trim()` yields a contiguous piece of the input, cutting only spaces on either side. The result neither starts nor ends with a space. It is empty exactly when the input is all spaces. |
| JsValues.TrimIdempotent | g3-webapp-back-2025/src/app/api/racks/route.js:43 | Trimming an already trimmed name changes nothing, so a stored rack name is its own trimmed form. |
| Racks.Create | g3-webapp-back-2025/src/app/api/racks/route.js:40-84 | Rejections come in order: 400 for a blank name, then rows that are not positive integers, then cols. A valid request whose trimmed name is already used gets 409, and 409 is given for nothing else. A rack is created iff none of these hold. It gets the trimmed name and the given rows and cols. In a valid registry (ids below the sequence counter) its id is fresh and every other rack is unchanged. |
| Racks.CreatePreservesValid | g3-webapp-back-2025/src/app/api/racks/route.js:59-64 | Creating a rack keeps ids below the sequence counter, names unique, and every stored name trimmed and non-empty. |
| Racks.DuplicateNameRefused | g3-webapp-back-2025/src/app/api/racks/route.js:77-80 | In a valid registry, a request whose trimmed name some rack already holds is refused with 409, and that rack is the only one holding the name. |
| Racks.Lookup | g3-webapp-back-2025/src/app/api/racks/route.js:12-25 | A non-integer id gives 400 "Invalid id". An integer id with no rack gives 404 "Not found". Otherwise the result is exactly that rack. |
| Racks.CreateThenLookup | g3-webapp-back-2025/src/app/api/racks/route.js:18-25 | A rack just created is found by its id, with the same trimmed name, rows and cols. |
| Racks.List | g3-webapp-back-2025/src/app/api/racks/route.js:29-32 | The listing is strictly ascending by rack id. It holds every rack of the registry and nothing else. |
| Racks.Get | g3-webapp-back-2025/src/app/api/racks/route.js:7-32 | Without an id, a listing strictly ascending by id that holds every rack of the registry and nothing else. With an id, exactly that rack, or 400 for a non-integer id and 404 for an unknown one. |
| SlotMove.Transaction | g3-webapp-back-2025/src/app/api/racks/move/route.js:25-82 | The unit of work commits only when no statement fails. The source must exist and hold a part. The destination must be an existing empty row, or a new key in a known rack. |
| SlotMove.Move | g3-webapp-back-2025/src/app/api/racks/move/route.js:9-101 | A response other than 200 leaves the tables unchanged. Missing identifiers and identical slots give 400. On 200 the destination holds exactly the source's payload and the source is cleared. The keys gain at most the destination, no other row changes, and the rack ids are unchanged. |
| SlotMove.AnyFaultRollsBack | g3-webapp-back-2025/src/app/api/racks/move/route.js:25-101 | A failure of any statement, from BEGIN to COMMIT, is answered with a status other than 200, and the tables are left as they were. |
| SlotMove.FaultClassified | g3-webapp-back-2025/src/app/api/racks/move/route.js:88-100 | A database fault in a move that would otherwise succeed is answered with the catch block's status and message for the thrown error, and the tables are left as they were. |
| SlotMove.StatusFor | g3-webapp-back-2025/src/app/api/racks/move/route.js:92-98 | The catch block answers 404, 409 or 500 and nothing else. 404 iff the error is a foreign-key violation or mentions "見つかりません". 500 iff it is neither and mentions neither "空です" nor "既に別の部品があります". |
| SlotMove.MessageFor | g3-webapp-back-2025/src/app/api/racks/move/route.js:94-100 | The error message is never empty. A foreign-key violation gets the fixed missing-rack text. Any other error with a message is answered with that message, and one without a message gets the fixed internal-error text. |
| SlotMove.ThrownMessagesClassified | g3-webapp-back-2025/src/app/api/racks/move/route.js:97-98 | The catch block's substring tests map the handler's own messages as intended: source missing gives 404, source empty gives 409, destination occupied gives 409. |
| SlotMove.MoveErrorPrecedence | g3-webapp-back-2025/src/app/api/racks/move/route.js:34-47 | Source missing gives 404 before source empty gives 409. That comes before destination occupied gives 409, which comes before an unknown destination rack gives the foreign-key 404. Each leaves the tables unchanged. |
| SlotMove.MoveSucceedsIff | g3-webapp-back-2025/src/app/api/racks/move/route.js:18-71 | With no database fault, the move succeeds iff all of these hold: the request is complete, the slots differ, the source holds a part, and the destination is an empty existing row or a key in a known rack. |
| SlotMove.SameRackOtherSlotAllowed | g3-webapp-back-2025/src/app/api/racks/move/route.js:21-23 | In consistent tables, moving a part between two different slots of the same rack is allowed. This holds whether the destination is an empty row (UPDATE) or has no row yet (INSERT). |
| SlotMove.MovePreservesConsistent | g3-webapp-back-2025/src/app/api/racks/move/route.js:60-71 | Every slot row still references an existing rack after any move. |
| SlotMove.MoveKeepsOccupancy | g3-webapp-back-2025/src/app/api/racks/move/route.js:50-80 | A successful move trades the source for the destination among the occupied slots, and their number is unchanged. |
| SlotMove.MoveBackRestores | g3-webapp-back-2025/src/app/api/racks/move/route.js:50-80 | Moving the part back succeeds and restores every row. The one exception is the former destination, which is left as a cleared row. |
| SlotMove.FailedWriteKeepsSource | g3-webapp-back-2025/src/app/api/racks/move/route.js:88-89 | A failure while writing the destination leaves the source row as it was and adds no destination row. |
| SlotMove.WidgetExample | g3-webapp-back-2025/src/app/api/racks/move/route.js:63-80 | Moving A-1 (Widget) to an absent A-2 in the same rack inserts A-2 with the payload and clears A-1. |
| EmployeeStore.FindFirst | g3-webapp-back-2025/src/app/api/auth/login/route.js:28-33 | `LIMIT 1` under a condition: None iff no row satisfies it, otherwise a satisfying row that comes before every other satisfying row. |
| EmployeeStore.FindByUserId | g3-webapp-back-2025/src/app/api/auth/login/route.js:28-34 | The lookup is None iff no row has the user id. Otherwise it is a row with that user id. |
| EmployeeStore.FindById | g3-webapp-back-2025/src/app/api/auth/me/route.js:53-56 | The lookup is None iff no row has the id. Otherwise it is a row with that id. |
| EmployeeStore.FindsUniqueRow | g3-webapp-back-2025/src/app/api/auth/me/route.js:53-56 | With unique keys, the lookups by id and by user id return exactly the row holding that key. |
| EmployeeStore.FindAppended | g3-webapp-back-2025/src/app/api/auth/register/route.js:48-55 | A row inserted under a user id no other row has is the row found by that user id. |
| Registration.IsHexColor | g3-webapp-back-2025/src/app/api/auth/register/route.js:68-69 | The pattern accepts exactly six characters from `0-9a-fA-F`. A string it accepts never starts with `#`. |
| Registration.CheckColor | g3-webapp-back-2025/src/app/api/auth/register/route.js:65-75 | A falsy colour is kept as is. A truthy colour is accepted iff it is six hex digits, with or without one leading `#`. The stored value is the six digits and never starts with `#`. |
| Registration.CheckColorIdempotent | g3-webapp-back-2025/src/app/api/auth/register/route.js:65-75 | A normalised colour passes the check again unchanged. |
| Registration.HashPrefixOptional | g3-webapp-back-2025/src/app/api/auth/register/route.js:67 | `#a1B2c3` and `a1B2c3` are accepted alike and stored alike. |
| Registration.Register | g3-webapp-back-2025/src/app/api/auth/register/route.js:24-110 | Missing fields give 400 before anything else. A duplicate user id gives 409 before the colour check, and a bad colour gives 400. Otherwise one row is appended, holding all of these: the hashed password, the role and line defaults, the coalesced notes, the normalised colour, and the table's active default. The returned user is that row without its password. |
| Registration.RegisterPreservesValid | g3-webapp-back-2025/src/app/api/auth/register/route.js:47-55 | After a registration, ids and user ids stay unique. |
| Registration.PrimaryKeysShadowAliases | g3-webapp-back-2025/src/app/api/auth/register/route.js:61-62 | When the primary notes and colour keys are present, their aliases have no effect on the result. |
| Registration.EmptyPrimaryColorKept | g3-webapp-back-2025/src/app/api/auth/register/route.js:62 | An empty primary colour wins over a valid alias and is stored as "". |
| LoginRoute.Login | g3-webapp-back-2025/src/app/api/auth/login/route.js:16-95 | Missing fields give 400. An unknown user, an inactive user and a wrong password all give the same 401. A missing secret gives 500, only after the credentials pass. A login succeeds iff the fields are present, the user is found and active, the password matches and the secret is set. On success the claims and the user come from the matching active row. |
| LoginRoute.PasswordMatches | g3-webapp-back-2025/src/app/api/auth/login/route.js:50-61 | A null or empty stored password matches only the empty password. A stored value with the `$2` prefix matches iff bcrypt answers match. Any other stored value matches only the identical password. |
| LoginRoute.EmptyStoredPasswordNeverMatches | g3-webapp-back-2025/src/app/api/auth/login/route.js:51-61 | A null or empty stored password authenticates no non-empty password. |
| LoginRoute.PasswordSchemeDispatch | g3-webapp-back-2025/src/app/api/auth/login/route.js:50-61 | The two schemes never mix. A plain-text stored value is decided the same whatever bcrypt would answer. A `$2` hash has no plain-text fallback, so sending the hash itself as the password fails unless bcrypt accepts it. |
| LoginRoute.SecretCheckedLast | g3-webapp-back-2025/src/app/api/auth/login/route.js:70-75 | A missing secret never changes a refusal. |
| AuthMe.BearerToken | g3-webapp-back-2025/src/app/api/auth/me/route.js:17-24 | A token is present iff the header starts with the case-sensitive `Bearer `. The token is the rest of the header, trimmed. |
| AuthMe.BearerTokenRoundTrip | g3-webapp-back-2025/src/app/api/auth/me/route.js:19-24 | Parsing `Bearer ` followed by a trimmed token gives that token back. |
| AuthMe.Me | g3-webapp-back-2025/src/app/api/auth/me/route.js:14-87 | A header without the prefix gives 401. A missing secret then gives 500. Only those two cases and a failed query give 500. A success names an existing active row whose id is the token's `employee_id`. |
| AuthMe.MeDecisionOrder | g3-webapp-back-2025/src/app/api/auth/me/route.js:33-71 | Failures are checked in this order: invalid token (401), no `employee_id` (401), then an unrepresentable expiry (401). Next a query error (500), no row (401) and an inactive row (401). Otherwise the row's id, name and role are returned. |
| AuthMe.LowerCaseBearerRefused | g3-webapp-back-2025/src/app/api/auth/me/route.js:19-22 | A `bearer ` header in lower case is answered 401 missing bearer. |
| AuthMe.HugeExpiryIsUnauthorized | g3-webapp-back-2025/src/app/api/auth/me/route.js:48-51 | An `exp` whose date cannot be formatted makes the handler throw. The catch-all answers 401 "unexpected". |
| AuthMe.RoleComesFromRow | g3-webapp-back-2025/src/app/api/auth/me/route.js:76-79 | The role and user id carried in the token do not affect the response. The role returned is the row's. |
| EmployeeSearch.Get | g3-webapp-back-2025/src/app/api/employees/route.js:26-27 | `get` is None iff the name is absent. Otherwise it is the value of the first parameter with that name. |
| EmployeeSearch.GetIgnoresLater | g3-webapp-back-2025/src/app/api/employees/route.js:26-27 | A parameter appended later does not change what `get` returns for a name already present, or for a different name. |
| EmployeeSearch.GetIgnoresOther | g3-webapp-back-2025/src/app/api/employees/route.js:26-27 | A parameter of another name, inserted at any position, does not change what `get` returns. |
| EmployeeSearch.Filters | g3-webapp-back-2025/src/app/api/employees/route.js:23-32 | There are at most three filters, and none carries an empty value. |
| EmployeeSearch.FiltersColumnsDistinct | g3-webapp-back-2025/src/app/api/employees/route.js:23-32 | No column is filtered twice, however often a parameter repeats in the query string. |
| EmployeeSearch.FiltersWhitelisted | g3-webapp-back-2025/src/app/api/employees/route.js:12-32 | Only `employee_name`, `employee_is_active` and `employee_line_id` are ever filtered. No filter has an empty value, and each filter carries the first value of its parameter. |
| EmployeeSearch.FilterPresentIff | g3-webapp-back-2025/src/app/api/employees/route.js:25-32 | Each whitelisted parameter yields its filter iff its value is neither missing nor empty. |
| EmployeeSearch.OtherParamsIgnored | g3-webapp-back-2025/src/app/api/employees/route.js:12-32 | A parameter outside the whitelist, inserted at any position in the query string, never changes the filters. |
| EmployeeSearch.DecimalInjective | g3-webapp-back-2025/src/app/api/employees/route.js:58 | Different numbers are written as different numerals. |
| EmployeeSearch.PlaceholdersDistinct | g3-webapp-back-2025/src/app/api/employees/route.js:53-62 | `$i` and `$j` differ whenever i and j do, so each clause names its own parameter. |
| EmployeeSearch.PasswordNeverSelected | g3-webapp-back-2025/src/app/api/employees/route.js:37-48 | The column list of the query never names `employee_password`. |
| EmployeeSearch.NumberConditions | g3-webapp-back-2025/src/app/api/employees/route.js:51-65 | The loop yields one condition and one parameter per filter, in filter order. The i-th condition uses `$(i+1)`, LIKE with `%value%` for the name, and `=` with the raw value otherwise. |
| EmployeeSearch.SortClause | g3-webapp-back-2025/src/app/api/employees/route.js:72-76 | `id_asc` appends exactly " ORDER BY employee_id ASC" and `id_desc` exactly " ORDER BY employee_id DESC". Any other value, or none, appends nothing. |
| EmployeeSearch.QueryText | g3-webapp-back-2025/src/app/api/employees/route.js:37-76 | Every query text starts with the base SELECT of the fixed column list. |
| EmployeeSearch.BuildQuery | g3-webapp-back-2025/src/app/api/employees/route.js:51-76 | The SQL text is the base SELECT, then the optional WHERE, then the sort suffix. There is exactly one parameter per filter, in order. |
| EmployeeSearch.ClausesIgnoreValues | g3-webapp-back-2025/src/app/api/employees/route.js:55-65 | The numbered conditions depend only on which columns are filtered. |
| EmployeeSearch.TextIgnoresValues | g3-webapp-back-2025/src/app/api/employees/route.js:51-76 | Two query strings that filter the same columns and sort alike give the same SQL text. Values reach the database only as parameters. |
| EmployeeSearch.NoFiltersNoWhere | g3-webapp-back-2025/src/app/api/employees/route.js:67-69 | With no filter parameter holding a value, the text is the base SELECT plus the sort suffix. |
| EmployeeSearch.WherePartIff | g3-webapp-back-2025/src/app/api/employees/route.js:67-76 | For any base text and any sort suffix that is empty or an ORDER BY, the text has a WHERE part iff there is a filter, and that part starts with " WHERE " right after the base. |
| EmployeeSearch.WherePresentIff | g3-webapp-back-2025/src/app/api/employees/route.js:67-69 | A WHERE clause follows the column list iff some filter is present. |
| AuthFlow.RegisterThenLogin | g3-webapp-back-2025/src/app/api/auth/login/route.js:34-93 | When new rows are active and bcrypt accepts its own hashes, a fresh registration logs in with its user id and password. The session carries the new id and the defaulted role. |
| AuthFlow.RegisteredInactiveDenied | g3-webapp-back-2025/src/app/api/auth/login/route.js:43-48 | When new rows are inactive by default, the newly registered employee gets the uniform 401. |
| AuthFlow.LoginThenMe | g3-webapp-back-2025/src/app/api/auth/me/route.js:53-79 | A token issued at login and presented as `Bearer <token>` identifies the same employee, with the name and role of the row. |

## Left out

- JSON body parsing and `Number()` coercion are not modelled. Request
  fields are optional values: `Option<string>` and `Option<int>`, and for
  rows, cols and the rack id a `Number` that is either an integer or not.
  A type mismatch between a numeric and a string id under `===` is not
  modelled.
- The `employee_id` in a token payload is an optional integer, and `exp`
  is an optional integer number of seconds. Non-numeric and fractional
  values are not modelled.
- The database driver, `@/lib/db`, is not part of this model. The move
  treats BEGIN … ROLLBACK as one session. Concurrent requests and the
  sequence gaps left by failed INSERTs are not modelled.
- The following database failures outside the move are not modelled:
  - the 500 answers of `GET /api/racks` and `POST /api/racks`
  - the 500 answers of register and login
  - the 23505 race in register, where a concurrent insert of the same
    user id makes the INSERT fail with 409
- `Racks.Create` signals the unique-name violation by a name check on
  the model's registry. The database's own constraint and its error code
  23505 are not modelled.
- Response envelopes are not modelled: the 201 status and
  success messages of create and register, the `access_token` string,
  the `_debug` field of `/api/auth/me`, and logging.
- bcrypt and jsonwebtoken internals are represented by function
  parameters. The salt rounds and the seven-day token lifetime are not
  modelled.
- The SQL text is modelled with single spaces. The handler's template
  literal uses newlines and indentation.
- The register route's GET (404) and `/api/auth/me`'s POST (405) are
  constant responses and are not modelled.
- Logout, the database and API test routes, the per-rack and slot
  routes, and per-employee routes are outside the modelled core.
- Quantity consumption, rack deletion and the slot-grid view have no
  code in the modelled handlers and are not modelled.
- Database errors in the move other than the foreign-key violation have
  no fixed text. Each is a `Thrown` value chosen by the fault plan, and
  the catch block's classification is applied to it.

=== FILE: auth_flow.dfy ===
/** The authentication routes taken together: an employee who registers can
    log in, and the token issued at login identifies that employee to
    `GET /api/auth/me`. */
module AuthFlow {
  import opened JsValues
  import opened EmployeeStore
  import opened Registration
  import opened LoginRoute
  import opened AuthMe

  /** The stored hash is one `compare` accepts for the password it came from,
      and it carries the `$2` prefix of a bcrypt hash. */
  predicate HashesAgree(hash: string -> string, compare: (string, string) -> Comparison, password: string)
  {
    StartsWith(hash(password), "$2") && compare(password, hash(password)) == Match
  }

  /** With the column default making new rows active, a fresh registration
      logs in with the same user id and password, and the session names the
      new row with its defaulted role. */
  lemma RegisterThenLogin(t: Table, req: RegisterRequest, hash: string -> string,
                          compare: (string, string) -> Comparison, secret: Option<string>)
    requires Register(t, req, hash).Registered?
    requires t.activeByDefault && Truthy(secret)
    requires HashesAgree(hash, compare, req.password.value)
    ensures
      var role := Some(Or(req.employeeRoleName, DefaultRole));
      Login(Register(t, req, hash).after, LoginRequest(req.employeeUserId, req.password), compare, secret)
      == LoggedIn(Claims(t.nextId, req.employeeUserId.value, role), SessionUser(t.nextId, req.employeeName.value, role))
  {
    var after := Register(t, req, hash).after;
    var e := after.rows[|t.rows|];
    assert after.rows == t.rows + [e];
    FindAppended(t.rows, e);
  }

  /** When the column default leaves new rows inactive, the new employee is
      refused at login like any unknown user. */
  lemma RegisteredInactiveDenied(t: Table, req: RegisterRequest, hash: string -> string,
                                 compare: (string, string) -> Comparison, secret: Option<string>)
    requires Register(t, req, hash).Registered?
    requires !t.activeByDefault
    ensures Login(Register(t, req, hash).after, LoginRequest(req.employeeUserId, req.password), compare, secret) == Denied
  {
    var after := Register(t, req, hash).after;
    var e := after.rows[|t.rows|];
    assert after.rows == t.rows + [e];
    FindAppended(t.rows, e);
  }

  /** The payload `jwt.verify` gives back for a token signed over `c`, with
      the expiry `exp` it was issued with. */
  function PayloadOf(c: Claims, exp: int): TokenPayload
  {
    TokenPayload(Some(c.employeeId), Some(c.employeeUserId), c.roleName, Some(exp))
  }

  /** A token issued at login and presented as `Bearer <token>` identifies
      the same employee, with the name and role of the row, as long as the
      row is unchanged and the token verifies under the same secret. */
  lemma LoginThenMe(t: Table, req: LoginRequest, compare: (string, string) -> Comparison, secret: string,
                    token: string, verify: (string, string) -> Option<TokenPayload>, exp: int)
    requires Valid(t)
    requires Login(t, req, compare, Some(secret)).LoggedIn?
    requires Trim(token) == token
    requires verify(token, secret) == Some(PayloadOf(Login(t, req, compare, Some(secret)).claims, exp))
    requires IsoDateDefined(exp)
    ensures
      var user := Login(t, req, compare, Some(secret)).user;
      Me(t, Some(BearerPrefix + token), Some(secret), verify, false)
      == Identified(user.employeeId, user.employeeName, user.roleName)
  {
    var r := Login(t, req, compare, Some(secret));
    var i :| 0 <= i < |t.rows| && t.rows[i].userId == req.employeeUserId.value && t.rows[i].isActive
      && r.claims == Claims(t.rows[i].id, t.rows[i].userId, t.rows[i].roleName)
      && r.user == SessionUser(t.rows[i].id, t.rows[i].name, t.rows[i].roleName);
    FindsUniqueRow(t, i);
    BearerTokenRoundTrip(token);
    var p := PayloadOf(r.claims, exp);
    assert TruthyInt(p.employeeId) && p.employeeId.value == t.rows[i].id;
    assert FindById(t.rows, p.employeeId.value) == Some(t.rows[i]);
  }
}

=== FILE: auth_me.dfy ===
/** `GET /api/auth/me`: read the bearer token, verify it, and look the
    employee up again, answering 401, 500 or 200 in a fixed order. */
module AuthMe {
  import opened JsValues
  import opened EmployeeStore

  /** The fields the handler destructures from the verified payload; a
      payload that is not an object yields all of them undefined. */
  datatype TokenPayload = TokenPayload(
    employeeId: Option<int>,
    employeeUserId: Option<string>,
    roleName: Option<string>,
    exp: Option<int>)

  datatype MeResult =
    | Identified(employeeId: int, employeeName: string, roleName: Option<string>)
    | MeRejected(status: int, error: string)

  const BearerPrefix := "Bearer "

  const MissingBearer := "Unauthorized: missing bearer"
  const NoSecret := "Server misconfiguration: JWT_SECRET"
  const InvalidToken := "Unauthorized: invalid token"
  const NoEmployeeId := "Unauthorized: no employee_id"
  const DbError := "Server DB error"
  const UserNotFound := "Unauthorized: user not found"
  const Inactive := "Unauthorized: inactive"
  const Unexpected := "Unauthorized: unexpected"

  /** The largest distance from the epoch, in milliseconds, that a JavaScript
      `Date` can hold (ECMA-262, section 21.4.1.1). */
  const MaxTimeValue := 8_640_000_000_000_000

  /** `new Date(exp * 1000).toISOString()` returns rather than throwing a RangeError. */
  predicate IsoDateDefined(exp: int)
  {
    -MaxTimeValue <= exp * 1000 <= MaxTimeValue
  }

  /** `(header || '')`, then the case-sensitive `Bearer ` prefix, then the
      rest of the header trimmed. */
  function BearerToken(header: Option<string>): (r: Option<string>)
    ensures r.Some? <==> StartsWith(Or(header, ""), BearerPrefix)
    ensures r.Some? ==>
      header.Some? && |header.value| >= 7 && header.value == BearerPrefix + header.value[7..] && r.value == Trim(header.value[7..])
  {
    var auth := Or(header, "");
    if StartsWith(auth, BearerPrefix) then
      assert auth == BearerPrefix + auth[7..];
      Some(Trim(SliceFrom(auth, 7)))
    else None
  }

  /** The handler. `verify` stands for `jwt.verify` (None when it throws),
      `queryFails` for a thrown database query. */
  function Me(t: Table, header: Option<string>, secret: Option<string>,
              verify: (string, string) -> Option<TokenPayload>, queryFails: bool): (r: MeResult)
    ensures BearerToken(header).None? ==> r == MeRejected(401, MissingBearer)
    ensures BearerToken(header).Some? && !Truthy(secret) ==> r == MeRejected(500, NoSecret)
    ensures r.MeRejected? && r.status == 500 ==>
      BearerToken(header).Some? && (!Truthy(secret) || queryFails)
    ensures r.MeRejected? ==> r.status == 401 || r.status == 500
    ensures r.Identified? ==>
      && BearerToken(header).Some? && Truthy(secret) && !queryFails
      && var p := verify(BearerToken(header).value, secret.value);
      && p.Some? && TruthyInt(p.value.employeeId)
      && (TruthyInt(p.value.exp) ==> IsoDateDefined(p.value.exp.value))
      && exists i | 0 <= i < |t.rows| ::
        var e := t.rows[i];
        && e.id == p.value.employeeId.value && e.isActive
        && r == Identified(e.id, e.name, e.roleName)
  {
    match BearerToken(header)
    case None => MeRejected(401, MissingBearer)
    case Some(token) =>
      if !Truthy(secret) then MeRejected(500, NoSecret)
      else
        match verify(token, secret.value)
        case None => MeRejected(401, InvalidToken)
        case Some(p) =>
          if !TruthyInt(p.employeeId) then MeRejected(401, NoEmployeeId)
          else if TruthyInt(p.exp) && !IsoDateDefined(p.exp.value) then MeRejected(401, Unexpected)
          else if queryFails then MeRejected(500, DbError)
          else
            match FindById(t.rows, p.employeeId.value)
            case None => MeRejected(401, UserNotFound)
            case Some(e) =>
              if !e.isActive then MeRejected(401, Inactive)
              else Identified(e.id, e.name, e.roleName)
  }

  /** Once the header and the secret pass, the checks run in a fixed order
      and the first that fails decides the response. */
  lemma MeDecisionOrder(t: Table, header: Option<string>, secret: Option<string>,
                        verify: (string, string) -> Option<TokenPayload>, queryFails: bool)
    requires BearerToken(header).Some? && Truthy(secret)
    ensures
      var p := verify(BearerToken(header).value, secret.value);
      var r := Me(t, header, secret, verify, queryFails);
      && (p.None? ==> r == MeRejected(401, InvalidToken))
      && (p.Some? && !TruthyInt(p.value.employeeId) ==> r == MeRejected(401, NoEmployeeId))
      && (p.Some? && TruthyInt(p.value.employeeId) && TruthyInt(p.value.exp) && !IsoDateDefined(p.value.exp.value)
          ==> r == MeRejected(401, Unexpected))
      && (p.Some? && TruthyInt(p.value.employeeId) && !(TruthyInt(p.value.exp) && !IsoDateDefined(p.value.exp.value))
          ==> var found := FindById(t.rows, p.value.employeeId.value);
              && (queryFails ==> r == MeRejected(500, DbError))
              && (!queryFails && found.None? ==> r == MeRejected(401, UserNotFound))
              && (!queryFails && found.Some? && !found.value.isActive ==> r == MeRejected(401, Inactive))
              && (!queryFails && found.Some? && found.value.isActive
                  ==> r == Identified(found.value.id, found.value.name, found.value.roleName)))
  {
  }

  /** Prefixing an already-trimmed token with `Bearer ` and parsing the
      header gives the token back. */
  lemma BearerTokenRoundTrip(token: string)
    requires Trim(token) == token
    ensures BearerToken(Some(BearerPrefix + token)) == Some(token)
  {
    assert (BearerPrefix + token)[..7] == BearerPrefix;
    assert SliceFrom(BearerPrefix + token, 7) == token;
  }

  /** The prefix is case-sensitive: `bearer ` is refused as missing. */
  lemma LowerCaseBearerRefused(t: Table, token: string, secret: Option<string>,
                               verify: (string, string) -> Option<TokenPayload>, queryFails: bool)
    ensures Me(t, Some("bearer " + token), secret, verify, queryFails) == MeRejected(401, MissingBearer)
  {
    assert ("bearer " + token)[..7] != BearerPrefix by {
      assert ("bearer " + token)[0] == 'b';
    }
  }

  /** A payload carrying an `exp` so large that the handler's date
      formatting throws is answered by the catch-all 401, not by a 500. */
  lemma HugeExpiryIsUnauthorized(t: Table, header: Option<string>, secret: Option<string>,
                                 verify: (string, string) -> Option<TokenPayload>, queryFails: bool)
    requires BearerToken(header).Some? && Truthy(secret)
    requires var p := verify(BearerToken(header).value, secret.value);
      p.Some? && TruthyInt(p.value.employeeId) && p.value.exp == Some(MaxTimeValue)
    ensures Me(t, header, secret, verify, queryFails) == MeRejected(401, Unexpected)
  {
  }

  /** The payload with the role and user id claims replaced. */
  function WithoutIdentityClaims(p: Option<TokenPayload>, role: Option<string>): Option<TokenPayload>
  {
    if p.Some? then Some(p.value.(roleName := role, employeeUserId := None)) else None
  }

  /** The role and user id carried by the token play no part: the answer
      is the same whatever they say, and `role_name` comes from the row. */
  lemma RoleComesFromRow(t: Table, header: Option<string>, secret: Option<string>,
                         verify: (string, string) -> Option<TokenPayload>, queryFails: bool, role: Option<string>)
    ensures Me(t, header, secret, verify, queryFails)
         == Me(t, header, secret, (tok, sec) => WithoutIdentityClaims(verify(tok, sec), role), queryFails)
  {
  }
}

=== FILE: employee_search.dfy ===
/** `GET /api/employees`: turn the query string into a parameterised
    SELECT with an optional WHERE clause and an optional ORDER BY. */
module EmployeeSearch {
  import opened JsValues

  /** The query string as `URLSearchParams` holds it: names and values in order. */
  type SearchParams = seq<(string, string)>

  /** `searchParams.get(name)`: the first value given for `name`. */
  function Get(ps: SearchParams, name: string): (r: Option<string>)
    ensures r.None? <==> forall i | 0 <= i < |ps| :: ps[i].0 != name
    ensures r.Some? ==> exists i | 0 <= i < |ps| ::
      && ps[i] == (name, r.value)
      && forall j | 0 <= j < i :: ps[j].0 != name
  {
    if ps == [] then None
    else if ps[0].0 == name then Some(ps[0].1)
    else
      var r := Get(ps[1..], name);
      assert forall i | 1 <= i < |ps| :: ps[i] == ps[1..][i - 1];
      r
  }

  /** A parameter appended after the others cannot change what `get`
      answers for a name given earlier, nor for any other name. */
  lemma {:induction false} GetIgnoresLater(ps: SearchParams, extra: (string, string), name: string)
    requires extra.0 != name || Get(ps, name).Some?
    ensures Get(ps + [extra], name) == Get(ps, name)
  {
    if ps != [] {
      assert (ps + [extra])[1..] == ps[1..] + [extra];
      if ps[0].0 != name {
        GetIgnoresLater(ps[1..], extra, name);
      }
    }
  }

  /** A parameter of another name, inserted anywhere, cannot change what
      `get` answers. */
  lemma {:induction false} GetIgnoresOther(ps: SearchParams, k: int, extra: (string, string), name: string)
    requires 0 <= k <= |ps|
    requires extra.0 != name
    ensures Get(ps[..k] + [extra] + ps[k..], name) == Get(ps, name)
  {
    var qs := ps[..k] + [extra] + ps[k..];
    if k == 0 {
      assert qs == [extra] + ps;
      assert qs[1..] == ps;
    } else {
      assert qs[0] == ps[0];
      assert qs[1..] == ps[1..][..k - 1] + [extra] + ps[1..][k - 1..];
      GetIgnoresOther(ps[1..], k - 1, extra, name);
    }
  }

  /** The three query parameters that may filter; every other one is ignored. */
  predicate IsFilterParam(name: string)
  {
    name == "employee_name" || name == "is_active" || name == "line_id"
  }

  datatype Filter = Filter(column: string, value: string)

  /** A filter on `column` when the parameter's value is neither missing nor empty. */
  function FilterIf(column: string, v: Option<string>): seq<Filter>
  {
    if Truthy(v) then [Filter(column, v.value)] else []
  }

  /** The `filters` object in whitelist order: name, then active flag, then line. */
  function Filters(ps: SearchParams): (fs: seq<Filter>)
    ensures |fs| <= 3
    ensures forall i | 0 <= i < |fs| :: fs[i].value != ""
  {
    FilterIf("employee_name", Get(ps, "employee_name"))
    + FilterIf("employee_is_active", Get(ps, "is_active"))
    + FilterIf("employee_line_id", Get(ps, "line_id"))
  }

  /** A filter made from a parameter carries its column and its non-empty value. */
  lemma FilterIfCarries(column: string, v: Option<string>)
    ensures forall f | f in FilterIf(column, v) :: f.column == column && f.value != "" && v == Some(f.value)
  {
  }

  /** No column outside the whitelist is ever filtered, no filter carries
      an empty value, and each filter carries the first value given for its
      parameter. */
  lemma FiltersWhitelisted(ps: SearchParams)
    ensures forall f | f in Filters(ps) ::
      f.value != "" && f.column in {"employee_name", "employee_is_active", "employee_line_id"}
    ensures forall f | f in Filters(ps) :: f.column == "employee_name" ==> Get(ps, "employee_name") == Some(f.value)
    ensures forall f | f in Filters(ps) :: f.column == "employee_is_active" ==> Get(ps, "is_active") == Some(f.value)
    ensures forall f | f in Filters(ps) :: f.column == "employee_line_id" ==> Get(ps, "line_id") == Some(f.value)
  {
    var n := FilterIf("employee_name", Get(ps, "employee_name"));
    var a := FilterIf("employee_is_active", Get(ps, "is_active"));
    var l := FilterIf("employee_line_id", Get(ps, "line_id"));
    assert Filters(ps) == n + a + l;
    FilterIfCarries("employee_name", Get(ps, "employee_name"));
    FilterIfCarries("employee_is_active", Get(ps, "is_active"));
    FilterIfCarries("employee_line_id", Get(ps, "line_id"));
  }

  /** No column is filtered twice, however often a parameter repeats. */
  lemma FiltersColumnsDistinct(ps: SearchParams)
    ensures forall i, j | 0 <= i < j < |Filters(ps)| :: Filters(ps)[i].column != Filters(ps)[j].column
  {
    var n := FilterIf("employee_name", Get(ps, "employee_name"));
    var a := FilterIf("employee_is_active", Get(ps, "is_active"));
    var l := FilterIf("employee_line_id", Get(ps, "line_id"));
    assert Filters(ps) == n + a + l;
  }

  /** Each whitelisted parameter filters its own column, with its first
      value, exactly when that value is neither missing nor empty. */
  lemma FilterPresentIff(ps: SearchParams)
    ensures Filter("employee_name", Or(Get(ps, "employee_name"), "")) in Filters(ps) <==> Truthy(Get(ps, "employee_name"))
    ensures Filter("employee_is_active", Or(Get(ps, "is_active"), "")) in Filters(ps) <==> Truthy(Get(ps, "is_active"))
    ensures Filter("employee_line_id", Or(Get(ps, "line_id"), "")) in Filters(ps) <==> Truthy(Get(ps, "line_id"))
  {
    var n := FilterIf("employee_name", Get(ps, "employee_name"));
    var a := FilterIf("employee_is_active", Get(ps, "is_active"));
    var l := FilterIf("employee_line_id", Get(ps, "line_id"));
    assert forall f :: f in Filters(ps) <==> f in n || f in a || f in l;
  }

  /** Parameters other than the three filter names never produce a filter. */
  lemma OtherParamsIgnored(ps: SearchParams, k: int, name: string, value: string)
    requires 0 <= k <= |ps|
    requires !IsFilterParam(name)
    ensures Filters(ps[..k] + [(name, value)] + ps[k..]) == Filters(ps)
  {
    GetIgnoresOther(ps, k, (name, value), "employee_name");
    GetIgnoresOther(ps, k, (name, value), "is_active");
    GetIgnoresOther(ps, k, (name, value), "line_id");
  }

  /** Name and notes match by substring (LIKE); every other column exactly. */
  predicate UsesLike(column: string)
  {
    column == "employee_name" || column == "employee_special_notes"
  }

  function Digit(d: nat): (c: char)
    requires d < 10
  {
    (48 + d) as char
  }

  /** The decimal numeral of `n`, as `${n}` writes it. */
  function Decimal(n: nat): (s: string)
    ensures 1 <= |s| && (n >= 10 ==> |s| >= 2)
    decreases n
  {
    if n < 10 then [Digit(n)] else Decimal(n / 10) + [Digit(n % 10)]
  }

  /** Different numbers have different numerals. */
  lemma {:induction false} DecimalInjective(a: nat, b: nat)
    requires Decimal(a) == Decimal(b)
    ensures a == b
  {
    if a >= 10 && b >= 10 {
      var da, db := Decimal(a / 10), Decimal(b / 10);
      assert Decimal(a)[..|da|] == da && Decimal(b)[..|db|] == db;
      DecimalInjective(a / 10, b / 10);
      assert Decimal(a)[|da|] == Digit(a % 10);
    } else if a < 10 && b < 10 {
      assert Decimal(a)[0] == Digit(a);
    }
  }

  /** `$k`. */
  function Placeholder(k: nat): string
  {
    "$" + Decimal(k)
  }

  /** Placeholders `$1 … $n` name n different parameters. */
  lemma PlaceholdersDistinct(i: nat, j: nat)
    requires i != j
    ensures Placeholder(i) != Placeholder(j)
  {
    if Placeholder(i) == Placeholder(j) {
      assert Placeholder(i)[1..] == Decimal(i) && Placeholder(j)[1..] == Decimal(j);
      DecimalInjective(i, j);
    }
  }

  /** The condition a filter contributes, numbered `$k`. */
  function Clause(f: Filter, k: nat): string
  {
    f.column + (if UsesLike(f.column) then " LIKE " else " = ") + Placeholder(k)
  }

  /** The parameter bound to a filter's placeholder. */
  function Argument(f: Filter): string
  {
    if UsesLike(f.column) then "%" + f.value + "%" else f.value
  }

  function Join(parts: seq<string>, sep: string): string
  {
    if |parts| == 0 then ""
    else if |parts| == 1 then parts[0]
    else parts[0] + sep + Join(parts[1..], sep)
  }

  /** The SELECT without conditions: the eight public columns of `employees`. */
  const BaseQuery :=
    "SELECT " + "employee_id, " + "employee_name, " + "employee_user_id, " + "employee_is_active, "
    + "employee_role_id, " + "employee_line_id, " + "employee_special_notes, " + "employee_color_code"
    + " FROM employees"

  /** The column list never names the password hash column. */
  lemma PasswordNeverSelected()
    ensures !Contains(BaseQuery, "employee_password")
  {
    assert "employee_password"[13] == 'w';
    assert 'w' !in "SELECT ";
    assert 'w' !in "employee_id, ";
    assert 'w' !in "employee_name, ";
    assert 'w' !in "employee_user_id, ";
    assert 'w' !in "employee_is_active, ";
    assert 'w' !in "employee_role_id, ";
    assert 'w' !in "employee_line_id, ";
    assert 'w' !in "employee_special_notes, ";
    assert 'w' !in "employee_color_code";
    assert 'w' !in " FROM employees";
    NotContainsWithoutChar(BaseQuery, "employee_password", 13);
  }

  /** The part of the sort suffix shared by both directions. */
  const OrderByEmployeeId := " ORDER BY " + "employee_id "

  /** Only the two whitelisted sort values order the rows, and both order by
      `employee_id`; any other value, or none, leaves the database's order. */
  function SortClause(sort: Option<string>): (r: string)
    ensures r == "" <==> sort != Some("id_asc") && sort != Some("id_desc")
    ensures sort == Some("id_asc") ==> r == " ORDER BY employee_id ASC"
    ensures sort == Some("id_desc") ==> r == " ORDER BY employee_id DESC"
    ensures r != "" ==> |r| > |OrderByEmployeeId| && r[..|OrderByEmployeeId|] == OrderByEmployeeId
  {
    if sort == Some("id_asc") then
      PrefixKept(OrderByEmployeeId, "ASC", "");
      OrderByEmployeeId + "ASC"
    else if sort == Some("id_desc") then
      PrefixKept(OrderByEmployeeId, "DESC", "");
      OrderByEmployeeId + "DESC"
    else ""
  }

  lemma PrefixKept(a: string, b: string, c: string)
    ensures (a + b + c)[..|a|] == a
  {
  }

  /** The numbered conditions of a filter list: the i-th uses `$(i+1)`. */
  function Clauses(fs: seq<Filter>): (cs: seq<string>)
    ensures |cs| == |fs|
  {
    seq(|fs|, i requires 0 <= i < |fs| => Clause(fs[i], i + 1))
  }

  function WhereClause(cs: seq<string>): string
  {
    if |cs| == 0 then "" else " WHERE " + Join(cs, " AND ")
  }

  /** The SQL text the handler sends for a query string. */
  function QueryText(ps: SearchParams): (sql: string)
    ensures |sql| >= |BaseQuery| && sql[..|BaseQuery|] == BaseQuery
  {
    PrefixKept(BaseQuery, WhereClause(Clauses(Filters(ps))), SortClause(Get(ps, "sort")));
    BaseQuery + WhereClause(Clauses(Filters(ps))) + SortClause(Get(ps, "sort"))
  }

  /** The parameters bound to the placeholders, in order. */
  function Arguments(fs: seq<Filter>): (args: seq<string>)
    ensures |args| == |fs|
  {
    seq(|fs|, i requires 0 <= i < |fs| => Argument(fs[i]))
  }

  /** The handler's loop over the filters: push one condition and one
      parameter per filter, numbering the placeholders with a running
      counter that starts at 1. */
  method NumberConditions(fs: seq<Filter>) returns (whereClauses: seq<string>, args: seq<string>)
    ensures whereClauses == Clauses(fs)
    ensures args == Arguments(fs)
  {
    whereClauses, args := [], [];
    var paramIndex := 1;
    var i := 0;
    while i < |fs|
      invariant 0 <= i <= |fs|
      invariant paramIndex == i + 1
      invariant |whereClauses| == i && |args| == i
      invariant forall j | 0 <= j < i :: whereClauses[j] == Clause(fs[j], j + 1)
      invariant forall j | 0 <= j < i :: args[j] == Argument(fs[j])
    {
      var f := fs[i];
      var clause, arg;
      if f.column == "employee_name" || f.column == "employee_special_notes" {
        clause, arg := f.column + " LIKE " + Placeholder(paramIndex), "%" + f.value + "%";
      } else {
        clause, arg := f.column + " = " + Placeholder(paramIndex), f.value;
      }
      assert clause == Clause(f, i + 1) && arg == Argument(f);
      whereClauses, args := whereClauses + [clause], args + [arg];
      paramIndex := paramIndex + 1;
      i := i + 1;
    }
  }

  /** The handler: filters, numbered conditions, the WHERE part when there
      is a condition, then the sort suffix. The SQL text is `QueryText(ps)`
      and the i-th parameter belongs to the i-th filter. */
  method BuildQuery(ps: SearchParams) returns (sql: string, args: seq<string>)
    ensures sql == QueryText(ps)
    ensures |args| == |Filters(ps)|
    ensures forall i | 0 <= i < |args| :: args[i] == Argument(Filters(ps)[i])
  {
    var fs := Filters(ps);
    var whereClauses;
    whereClauses, args := NumberConditions(fs);
    var where := "";
    if |whereClauses| > 0 {
      where := " WHERE " + Join(whereClauses, " AND ");
    }
    assert where == WhereClause(Clauses(fs));
    var sort := SortClause(Get(ps, "sort"));
    sql := BaseQuery + where + sort;
  }

  function ColumnsOf(fs: seq<Filter>): seq<string>
  {
    seq(|fs|, i requires 0 <= i < |fs| => fs[i].column)
  }

  /** The numbered conditions depend on the filtered columns only. */
  lemma ClausesIgnoreValues(fs1: seq<Filter>, fs2: seq<Filter>)
    requires ColumnsOf(fs1) == ColumnsOf(fs2)
    ensures Clauses(fs1) == Clauses(fs2)
  {
    assert |fs1| == |ColumnsOf(fs1)| == |ColumnsOf(fs2)| == |fs2|;
    forall i | 0 <= i < |fs1|
      ensures Clauses(fs1)[i] == Clauses(fs2)[i]
    {
      assert ColumnsOf(fs1)[i] == fs1[i].column;
      assert ColumnsOf(fs2)[i] == fs2[i].column;
    }
  }

  /** The SQL text never depends on the values supplied: two query strings
      that filter the same columns and sort alike give the same text, the
      values travelling only as parameters. */
  lemma TextIgnoresValues(ps1: SearchParams, ps2: SearchParams)
    requires ColumnsOf(Filters(ps1)) == ColumnsOf(Filters(ps2))
    requires SortClause(Get(ps1, "sort")) == SortClause(Get(ps2, "sort"))
    ensures QueryText(ps1) == QueryText(ps2)
  {
    ClausesIgnoreValues(Filters(ps1), Filters(ps2));
  }

  /** No filter parameter with a value: the bare SELECT plus the sort. */
  lemma NoFiltersNoWhere(ps: SearchParams)
    requires !Truthy(Get(ps, "employee_name")) && !Truthy(Get(ps, "is_active")) && !Truthy(Get(ps, "line_id"))
    ensures QueryText(ps) == BaseQuery + SortClause(Get(ps, "sort"))
  {
    assert Filters(ps) == [];
    assert WhereClause(Clauses([])) == "";
  }

  /** Text carrying a WHERE part never equals text without one, whatever
      sort suffix follows; and that part starts right after the base. */
  lemma {:induction false} WherePartIff(base: string, fs: seq<Filter>, sort: string)
    requires sort == "" || (|sort| > 1 && sort[1] == 'O')
    ensures fs == [] <==> base + WhereClause(Clauses(fs)) + sort == base + sort
    ensures fs != [] ==> (base + WhereClause(Clauses(fs)) + sort)[|base|..|base| + 7] == " WHERE "
  {
    var w := WhereClause(Clauses(fs));
    if fs == [] {
      assert w == "";
    } else {
      var t := base + w + sort;
      assert w == " WHERE " + Join(Clauses(fs), " AND ");
      assert t[|base|..|base| + 7] == " WHERE ";
      if sort != "" {
        assert t[|base| + 1] == 'W' && (base + sort)[|base| + 1] == 'O';
      } else {
        assert |t| > |base + sort|;
      }
    }
  }

  /** A WHERE clause follows the column list exactly when some filter is present. */
  lemma WherePresentIff(ps: SearchParams)
    ensures Filters(ps) == [] <==> QueryText(ps) == BaseQuery + SortClause(Get(ps, "sort"))
    ensures Filters(ps) != [] ==> QueryText(ps)[|BaseQuery|..|BaseQuery| + 7] == " WHERE "
  {
    var sort := SortClause(Get(ps, "sort"));
    assert sort != "" ==> sort[1] == OrderByEmployeeId[1] == 'O';
    WherePartIff(BaseQuery, Filters(ps), sort);
  }
}

=== FILE: employee_store.dfy ===
/** The `employees` table as the authentication routes read and write it. */
module EmployeeStore {
  import opened JsValues

  /** A row of `employees`; `password` holds what was stored, a bcrypt hash
      or, for older rows, the plain text. */
  datatype Employee = Employee(
    id: int,
    userId: string,
    password: Option<string>,
    name: string,
    roleName: Option<string>,
    lineName: Option<string>,
    specialNotes: Option<string>,
    colorCode: Option<string>,
    isActive: bool)

  /** The rows in storage order, the serial sequence behind `employee_id`,
      and the column default of `employee_is_active`, which the INSERT of
      the register route leaves to the table. */
  datatype Table = Table(rows: seq<Employee>, nextId: int, activeByDefault: bool)

  /** Ids come from the sequence and are positive; ids and user ids are unique. */
  ghost predicate Valid(t: Table)
  {
    && 1 <= t.nextId
    && (forall i | 0 <= i < |t.rows| :: 1 <= t.rows[i].id < t.nextId)
    && (forall i, j | 0 <= i < j < |t.rows| :: t.rows[i].id != t.rows[j].id && t.rows[i].userId != t.rows[j].userId)
  }

  /** `… LIMIT 1` under a condition: the first row in storage order that
      satisfies it, or None when no row does. */
  function FindFirst(rows: seq<Employee>, matches: Employee -> bool): (r: Option<Employee>)
    ensures r.None? <==> forall i | 0 <= i < |rows| :: !matches(rows[i])
    ensures r.Some? ==> exists i | 0 <= i < |rows| ::
      && rows[i] == r.value && matches(r.value)
      && forall j | 0 <= j < i :: !matches(rows[j])
  {
    if rows == [] then None
    else if matches(rows[0]) then Some(rows[0])
    else
      var r := FindFirst(rows[1..], matches);
      assert forall i | 1 <= i < |rows| :: rows[i] == rows[1..][i - 1];
      r
  }

  /** `SELECT … WHERE employee_user_id = $1 LIMIT 1`. */
  function FindByUserId(rows: seq<Employee>, userId: string): (r: Option<Employee>)
    ensures r.None? <==> forall i | 0 <= i < |rows| :: rows[i].userId != userId
    ensures r.Some? ==> exists i | 0 <= i < |rows| :: rows[i] == r.value && r.value.userId == userId
  {
    FindFirst(rows, (e: Employee) => e.userId == userId)
  }

  /** `SELECT … WHERE employee_id = $1 LIMIT 1`. */
  function FindById(rows: seq<Employee>, id: int): (r: Option<Employee>)
    ensures r.None? <==> forall i | 0 <= i < |rows| :: rows[i].id != id
    ensures r.Some? ==> exists i | 0 <= i < |rows| :: rows[i] == r.value && r.value.id == id
  {
    FindFirst(rows, (e: Employee) => e.id == id)
  }

  /** With unique keys, a row is exactly what the lookups return for its keys. */
  lemma FindsUniqueRow(t: Table, i: int)
    requires Valid(t) && 0 <= i < |t.rows|
    ensures FindByUserId(t.rows, t.rows[i].userId) == Some(t.rows[i])
    ensures FindById(t.rows, t.rows[i].id) == Some(t.rows[i])
  {
    var u := FindByUserId(t.rows, t.rows[i].userId);
    var j :| 0 <= j < |t.rows| && t.rows[j] == u.value && u.value.userId == t.rows[i].userId;
    assert j == i;
    var v := FindById(t.rows, t.rows[i].id);
    var k :| 0 <= k < |t.rows| && t.rows[k] == v.value && v.value.id == t.rows[i].id;
    assert k == i;
  }

  /** A row appended under a user id no earlier row has is what the lookup
      by that user id finds. */
  lemma {:induction false} FindAppended(rows: seq<Employee>, e: Employee)
    requires FindByUserId(rows, e.userId).None?
    ensures FindByUserId(rows + [e], e.userId) == Some(e)
  {
    if rows != [] {
      assert (rows + [e])[1..] == rows[1..] + [e];
      FindAppended(rows[1..], e);
    }
  }
}

=== FILE: js_values.dfy ===
/** The parts of JavaScript value semantics the route handlers lean on:
    null/undefined, truthiness, `??`, `||`, `Number.isInteger`, and the
    string methods `startsWith`, `slice`, `includes` and `trim`. */
module JsValues {

  /** A value that may be null or undefined; the handlers never tell the two apart. */
  datatype Option<+T> = None | Some(value: T)

  /** `a ?? b`: `a` unless it is null or undefined. */
  function Coalesce<T>(a: Option<T>, b: Option<T>): Option<T>
  {
    if a.Some? then a else b
  }

  /** `a ?? d` with a fallback that is never null. */
  function ValueOr<T>(a: Option<T>, d: T): T
  {
    if a.Some? then a.value else d
  }

  /** Truthiness of an optional string: null, undefined and "" are falsy. */
  predicate Truthy(s: Option<string>)
  {
    s.Some? && s.value != ""
  }

  /** Truthiness of an optional number: null, undefined and 0 are falsy. */
  predicate TruthyInt(n: Option<int>)
  {
    n.Some? && n.value != 0
  }

  /** `s || d` for an optional string. */
  function Or(s: Option<string>, d: string): string
  {
    if Truthy(s) then s.value else d
  }

  /** What `Number(v)` yields, as far as `Number.isInteger` can tell: an
      integer, or something else (NaN, a fraction, an infinity). */
  datatype Number = Integer(n: int) | NotInteger

  /** `Number.isInteger(n) && n > 0`. */
  predicate PositiveInteger(n: Number)
  {
    n.Integer? && n.n > 0
  }

  /** `s.startsWith(prefix)`, case-sensitive. */
  predicate StartsWith(s: string, prefix: string)
  {
    |prefix| <= |s| && s[..|prefix|] == prefix
  }

  /** `s.slice(n)` for a non-negative `n`. */
  function SliceFrom(s: string, n: nat): string
  {
    if n <= |s| then s[n..] else ""
  }

  /** `part` occurs in `s` starting at index `i`. */
  predicate OccursAt(s: string, part: string, i: int)
  {
    0 <= i <= |s| - |part| && s[i..i + |part|] == part
  }

  /** `s.includes(part)`. */
  predicate Contains(s: string, part: string)
  {
    exists i | 0 <= i <= |s| - |part| :: OccursAt(s, part, i)
  }

  /** A string can contain no part with a character it lacks. */
  lemma NotContainsWithoutChar(s: string, part: string, k: int)
    requires 0 <= k < |part| && part[k] !in s
    ensures !Contains(s, part)
  {
    forall i | 0 <= i <= |s| - |part|
      ensures !OccursAt(s, part, i)
    {
      assert s[i..i + |part|][k] == s[i + k];
      assert s[i + k] in s;
    }
  }

  /** The characters `String.prototype.trim` removes: WhiteSpace and
      LineTerminator of ECMA-262 (sections 12.2 and 12.3). */
  predicate IsSpace(c: char)
  {
    || c == '\t' || c == '\n' || c == '\U{B}' || c == '\U{C}' || c == '\r'
    || c == ' ' || c == '\U{A0}' || c == '\U{1680}'
    || ('\U{2000}' <= c <= '\U{200A}')
    || c == '\U{2028}' || c == '\U{2029}' || c == '\U{202F}' || c == '\U{205F}'
    || c == '\U{3000}' || c == '\U{FEFF}'
  }

  predicate AllSpace(s: string)
  {
    forall i | 0 <= i < |s| :: IsSpace(s[i])
  }

  /** The first index at or after `i` that does not hold a space. */
  function SkipSpaces(s: string, i: nat): (j: nat)
    requires i <= |s|
    ensures i <= j <= |s|
    ensures forall k | i <= k < j :: IsSpace(s[k])
    ensures j == |s| || !IsSpace(s[j])
    decreases |s| - i
  {
    if i < |s| && IsSpace(s[i]) then SkipSpaces(s, i + 1) else i
  }

  /** The least index in `lo..j` from which `s[..j]` ends in spaces only. */
  function SkipSpacesBack(s: string, lo: nat, j: nat): (i: nat)
    requires lo <= j <= |s|
    ensures lo <= i <= j
    ensures forall k | i <= k < j :: IsSpace(s[k])
    ensures i == lo || !IsSpace(s[i - 1])
    decreases j - lo
  {
    if lo < j && IsSpace(s[j - 1]) then SkipSpacesBack(s, lo, j - 1) else j
  }

  /** `s.trim()`: a contiguous piece of `s` that neither starts nor ends
      with a space, with only spaces cut away on either side; it is empty
      exactly when `s` is all spaces. */
  function Trim(s: string): (r: string)
    ensures exists i, j | 0 <= i <= j <= |s| ::
      && r == s[i..j]
      && (forall k | 0 <= k < i :: IsSpace(s[k]))
      && (forall k | j <= k < |s| :: IsSpace(s[k]))
    ensures r == [] || (!IsSpace(r[0]) && !IsSpace(r[|r| - 1]))
    ensures r == [] <==> AllSpace(s)
  {
    var i := SkipSpaces(s, 0);
    var j := SkipSpacesBack(s, i, |s|);
    s[i..j]
  }

  /** Trimming a trimmed string changes nothing. */
  lemma TrimIdempotent(s: string)
    ensures Trim(Trim(s)) == Trim(s)
  {
  }
}

=== FILE: login.dfy ===
/** `POST /api/auth/login`: the ordered checks, the choice between bcrypt
    and the plain-text fallback, and the claims of the issued token. */
module LoginRoute {
  import opened JsValues
  import opened EmployeeStore

  datatype LoginRequest = LoginRequest(employeeUserId: Option<string>, password: Option<string>)

  /** What `bcrypt.compare` does: resolves true, resolves false, or throws. */
  datatype Comparison = Match | Mismatch | CompareThrew

  /** The payload handed to `jwt.sign` (with a lifetime of seven days). */
  datatype Claims = Claims(employeeId: int, employeeUserId: string, roleName: Option<string>)

  /** The `user` object of the response. */
  datatype SessionUser = SessionUser(employeeId: int, employeeName: string, roleName: Option<string>)

  datatype LoginResult =
    | LoggedIn(claims: Claims, user: SessionUser)
    | LoginRejected(status: int, error: string)

  const MissingFields := "employee_user_id と password は必須です。"
  const BadCredentials := "Invalid user ID or password"
  const NoSecret := "JWT_SECRET 未設定のためトークンを生成できません。"

  /** The one response given for an unknown user, an inactive user and a
      wrong password alike. */
  const Denied := LoginRejected(401, BadCredentials)

  /** `user.employee_password || ''` checked against the given password:
      by `compare` when it looks like a bcrypt hash (`$2` prefix), by plain
      equality otherwise; a throwing comparison is a mismatch. */
  predicate PasswordMatches(password: string, stored: Option<string>, compare: (string, string) -> Comparison)
    ensures !Truthy(stored) ==> (PasswordMatches(password, stored, compare) <==> password == "")
    ensures Truthy(stored) && !StartsWith(stored.value, "$2") ==>
      (PasswordMatches(password, stored, compare) <==> password == stored.value)
    ensures Truthy(stored) && StartsWith(stored.value, "$2") ==>
      (PasswordMatches(password, stored, compare) <==> compare(password, stored.value) == Match)
  {
    var s := Or(stored, "");
    if StartsWith(s, "$2") then compare(password, s) == Match else password == s
  }

  /** The handler. `secret` is `process.env.JWT_SECRET`. */
  function Login(t: Table, req: LoginRequest, compare: (string, string) -> Comparison, secret: Option<string>): (r: LoginResult)
    ensures !(Truthy(req.employeeUserId) && Truthy(req.password)) <==> r == LoginRejected(400, MissingFields)
    ensures r.LoginRejected? && r.status == 401 ==> r == Denied
    ensures Truthy(req.employeeUserId) && Truthy(req.password) ==>
      var found := FindByUserId(t.rows, req.employeeUserId.value);
      && (r == Denied <==>
           found.None? || !found.value.isActive || !PasswordMatches(req.password.value, found.value.password, compare))
      && (r == LoginRejected(500, NoSecret) <==>
           found.Some? && found.value.isActive && PasswordMatches(req.password.value, found.value.password, compare)
           && !Truthy(secret))
      && (r.LoggedIn? <==>
           found.Some? && found.value.isActive && PasswordMatches(req.password.value, found.value.password, compare)
           && Truthy(secret))
    ensures r.LoggedIn? ==>
      && Truthy(req.employeeUserId) && Truthy(req.password) && Truthy(secret)
      && exists i | 0 <= i < |t.rows| ::
        var e := t.rows[i];
        && e.userId == req.employeeUserId.value && e.isActive
        && PasswordMatches(req.password.value, e.password, compare)
        && r.claims == Claims(e.id, e.userId, e.roleName)
        && r.user == SessionUser(e.id, e.name, e.roleName)
  {
    if !(Truthy(req.employeeUserId) && Truthy(req.password)) then LoginRejected(400, MissingFields)
    else
      match FindByUserId(t.rows, req.employeeUserId.value)
      case None => Denied
      case Some(e) =>
        if !e.isActive then Denied
        else if !PasswordMatches(req.password.value, e.password, compare) then Denied
        else if !Truthy(secret) then LoginRejected(500, NoSecret)
        else LoggedIn(Claims(e.id, e.userId, e.roleName), SessionUser(e.id, e.name, e.roleName))
  }

  /** A null or empty stored password authenticates no one: the handler
      insists on a non-empty password and compares it with "". */
  lemma EmptyStoredPasswordNeverMatches(password: string, stored: Option<string>, compare: (string, string) -> Comparison)
    requires password != ""
    requires !Truthy(stored)
    ensures !PasswordMatches(password, stored, compare)
  {
  }

  /** The two schemes never mix: a plain-text stored value is decided
      without bcrypt, whatever `compare` answers, and a bcrypt hash gives no
      plain-text fallback, so sending the hash itself as the password logs
      in only when bcrypt accepts it. */
  lemma PasswordSchemeDispatch(password: string, stored: string, compare: (string, string) -> Comparison, other: (string, string) -> Comparison)
    ensures !StartsWith(stored, "$2") ==>
      PasswordMatches(password, Some(stored), compare) == PasswordMatches(password, Some(stored), other)
    ensures StartsWith(stored, "$2") && compare(stored, stored) != Match ==> !PasswordMatches(stored, Some(stored), compare)
  {
  }

  /** The secret is only consulted once the credentials are accepted: a
      missing secret never turns a refusal into a 500. */
  lemma SecretCheckedLast(t: Table, req: LoginRequest, compare: (string, string) -> Comparison, secret: Option<string>)
    requires Login(t, req, compare, Some("s")).LoginRejected?
    ensures Login(t, req, compare, secret) == Login(t, req, compare, Some("s"))
  {
  }
}

=== FILE: racks.dfy ===
/** The rack registry of `/api/racks`: creating a rack, looking one up by
    id, and listing all racks in id order. */
module Racks {
  import opened JsValues

  /** A rack as the handlers return it: `{rack_id, rack_name, rows, cols}`. */
  datatype Rack = Rack(id: int, name: string, rows: int, cols: int)

  /** A row of the `racks` table, without its key. */
  datatype RackRow = RackRow(name: string, rows: int, cols: int)

  /** The `racks` table keyed by `rack_id`, with the serial sequence that
      issues the next `rack_id`. */
  datatype Registry = Registry(racks: map<int, RackRow>, nextId: int)

  function AsRack(id: int, row: RackRow): Rack
  {
    Rack(id, row.name, row.rows, row.cols)
  }

  /** A row that the create handler could have written. */
  predicate WellFormed(row: RackRow)
  {
    row.name != "" && Trim(row.name) == row.name && row.rows > 0 && row.cols > 0
  }

  /** The table's invariant: keys come from the sequence, names are unique
      (the unique constraint behind error 23505), rows are well formed. */
  ghost predicate Valid(reg: Registry)
  {
    && 1 <= reg.nextId
    && (forall id | id in reg.racks :: 1 <= id < reg.nextId && WellFormed(reg.racks[id]))
    && (forall a, b | a in reg.racks && b in reg.racks && reg.racks[a].name == reg.racks[b].name :: a == b)
  }

  predicate NameTaken(reg: Registry, name: string)
  {
    exists id | id in reg.racks :: reg.racks[id].name == name
  }

  /** The JSON body of `POST /api/racks`, after `Number()` on rows and cols. */
  datatype CreateRequest = CreateRequest(rackName: Option<string>, rows: Number, cols: Number)

  datatype CreateResult =
    | Created(rack: Rack, after: Registry)
    | CreateRejected(status: int, error: string)

  const NameRequired := "rack_name is required"
  const RowsInvalid := "rows must be a positive integer"
  const ColsInvalid := "cols must be a positive integer"
  const NameExists := "rack_name already exists"

  /** `(body?.rack_name ?? '')` before trimming. */
  function RawName(req: CreateRequest): string
  {
    ValueOr(req.rackName, "")
  }

  /** `POST /api/racks`: validate name, rows and cols in that order, then
      insert; a duplicate name is a unique violation (409). */
  function Create(reg: Registry, req: CreateRequest): (r: CreateResult)
    ensures r.Created? <==>
      && !AllSpace(RawName(req))
      && PositiveInteger(req.rows) && PositiveInteger(req.cols)
      && !NameTaken(reg, Trim(RawName(req)))
    ensures AllSpace(RawName(req)) ==> r == CreateRejected(400, NameRequired)
    ensures !AllSpace(RawName(req)) && !PositiveInteger(req.rows) ==> r == CreateRejected(400, RowsInvalid)
    ensures !AllSpace(RawName(req)) && PositiveInteger(req.rows) && !PositiveInteger(req.cols)
      ==> r == CreateRejected(400, ColsInvalid)
    ensures r.CreateRejected? && r.status == 409 ==> r.error == NameExists && NameTaken(reg, Trim(RawName(req)))
    ensures && !AllSpace(RawName(req))
            && PositiveInteger(req.rows) && PositiveInteger(req.cols)
            && NameTaken(reg, Trim(RawName(req)))
      ==> r == CreateRejected(409, NameExists)
    ensures r.Created? ==>
      && r.rack.name == Trim(RawName(req)) && r.rack.name != ""
      && r.rack.rows == req.rows.n && r.rack.cols == req.cols.n
      && r.after.racks.Keys == reg.racks.Keys + {r.rack.id}
      && r.after.racks[r.rack.id] == RackRow(r.rack.name, r.rack.rows, r.rack.cols)
    ensures r.Created? && Valid(reg) ==>
      && r.rack.id !in reg.racks
      && (forall id | id in reg.racks :: r.after.racks[id] == reg.racks[id])
  {
    var name := Trim(RawName(req));
    if name == "" then CreateRejected(400, NameRequired)
    else if !PositiveInteger(req.rows) then CreateRejected(400, RowsInvalid)
    else if !PositiveInteger(req.cols) then CreateRejected(400, ColsInvalid)
    else if NameTaken(reg, name) then CreateRejected(409, NameExists)
    else
      var id := reg.nextId;
      var row := RackRow(name, req.rows.n, req.cols.n);
      Created(AsRack(id, row), Registry(reg.racks[id := row], reg.nextId + 1))
  }

  /** Creating a rack keeps the table's invariant. */
  lemma CreatePreservesValid(reg: Registry, req: CreateRequest)
    requires Valid(reg)
    ensures Create(reg, req).Created? ==> Valid(Create(reg, req).after)
  {
    var r := Create(reg, req);
    if r.Created? {
      TrimIdempotent(RawName(req));
    }
  }

  datatype LookupResult = Found(rack: Rack) | LookupFailed(status: int, error: string)

  const InvalidId := "Invalid id"
  const NotFound := "Not found"

  /** `GET /api/racks?id=…`: a non-integer id is 400, an unknown one 404. */
  function Lookup(reg: Registry, id: Number): (r: LookupResult)
    ensures r.Found? <==> id.Integer? && id.n in reg.racks
    ensures r.Found? ==> r.rack.id == id.n && r.rack == AsRack(id.n, reg.racks[id.n])
    ensures id.NotInteger? ==> r == LookupFailed(400, InvalidId)
    ensures id.Integer? && id.n !in reg.racks ==> r == LookupFailed(404, NotFound)
  {
    match id
    case NotInteger => LookupFailed(400, InvalidId)
    case Integer(n) => if n in reg.racks then Found(AsRack(n, reg.racks[n])) else LookupFailed(404, NotFound)
  }

  /** A rack just created is found by its id, with the trimmed name. */
  lemma CreateThenLookup(reg: Registry, req: CreateRequest)
    requires Create(reg, req).Created?
    ensures var r := Create(reg, req);
      Lookup(r.after, Integer(r.rack.id)) == Found(r.rack)
  {
  }

  /** In a valid registry a name already in use is refused with 409, and
      the rack holding it is the only one with that name. */
  lemma DuplicateNameRefused(reg: Registry, req: CreateRequest, id: int)
    requires Valid(reg)
    requires id in reg.racks && reg.racks[id].name == Trim(RawName(req))
    requires PositiveInteger(req.rows) && PositiveInteger(req.cols)
    ensures Create(reg, req) == CreateRejected(409, NameExists)
    ensures forall other | other in reg.racks && reg.racks[other].name == Trim(RawName(req)) :: other == id
  {
  }

  /** Every non-empty finite set of integers has a least element. */
  lemma {:induction false} LeastExists(s: set<int>)
    requires s != {}
    ensures exists m | m in s :: forall k | k in s :: m <= k
  {
    if forall y :: y !in s {
      assert false;
    }
    var x :| x in s;
    var rest := s - {x};
    if rest != {} {
      LeastExists(rest);
      var m :| m in rest && forall k | k in rest :: m <= k;
      var least := if x < m then x else m;
      forall k | k in s
        ensures least <= k
      {
        if k != x {
          assert k in rest;
        }
      }
    } else {
      forall k | k in s
        ensures x <= k
      {
        assert k !in rest;
      }
    }
  }

  /** `GET /api/racks` without an id: every rack once, ordered by `rack_id`. */
  method List(reg: Registry) returns (rs: seq<Rack>)
    ensures forall i, j | 0 <= i < j < |rs| :: rs[i].id < rs[j].id
    ensures forall i | 0 <= i < |rs| :: rs[i].id in reg.racks && rs[i] == AsRack(rs[i].id, reg.racks[rs[i].id])
    ensures forall id | id in reg.racks :: AsRack(id, reg.racks[id]) in rs
  {
    rs := [];
    var left := reg.racks.Keys;
    while left != {}
      invariant left <= reg.racks.Keys
      invariant forall i, j | 0 <= i < j < |rs| :: rs[i].id < rs[j].id
      invariant forall i | 0 <= i < |rs| :: rs[i].id in reg.racks && rs[i] == AsRack(rs[i].id, reg.racks[rs[i].id])
      invariant forall i, k | 0 <= i < |rs| && k in left :: rs[i].id < k
      invariant forall id | id in reg.racks && id !in left :: AsRack(id, reg.racks[id]) in rs
      decreases left
    {
      LeastExists(left);
      var m :| m in left && forall k | k in left :: m <= k;
      rs := rs + [AsRack(m, reg.racks[m])];
      left := left - {m};
    }
  }

  datatype GetResult = One(rack: Rack) | All(racks: seq<Rack>) | GetFailed(status: int, error: string)

  /** `GET /api/racks`: with an `id` parameter a lookup, without one the listing. */
  method Get(reg: Registry, idParam: Option<Number>) returns (r: GetResult)
    ensures idParam.None? ==> r.All? && (forall i, j | 0 <= i < j < |r.racks| :: r.racks[i].id < r.racks[j].id)
    ensures idParam.None? ==> forall id | id in reg.racks :: AsRack(id, reg.racks[id]) in r.racks
    ensures idParam.None? ==> forall i | 0 <= i < |r.racks| ::
      r.racks[i].id in reg.racks && r.racks[i] == AsRack(r.racks[i].id, reg.racks[r.racks[i].id])
    ensures idParam.Some? ==> (r.One? <==> idParam.value.Integer? && idParam.value.n in reg.racks)
    ensures idParam.Some? && idParam.value.NotInteger? ==> r == GetFailed(400, InvalidId)
    ensures idParam.Some? && idParam.value.Integer? && idParam.value.n !in reg.racks ==> r == GetFailed(404, NotFound)
    ensures r.One? ==> idParam.Some? && r.rack == AsRack(idParam.value.n, reg.racks[idParam.value.n])
  {
    if idParam.Some? {
      match Lookup(reg, idParam.value)
      case Found(rack) => r := One(rack);
      case LookupFailed(status, error) => r := GetFailed(status, error);
    } else {
      var rs := List(reg);
      r := All(rs);
    }
  }
}

=== FILE: registration.dfy ===
/** `POST /api/auth/register`: required fields, duplicate user id, the
    aliased notes and colour fields, colour-code normalisation, and the
    role and line defaults. */
module Registration {
  import opened JsValues
  import opened EmployeeStore

  /** The JSON body; the notes and colour code may come under either of two keys. */
  datatype RegisterRequest = RegisterRequest(
    employeeUserId: Option<string>,
    password: Option<string>,
    employeeName: Option<string>,
    employeeRoleName: Option<string>,
    employeeLineName: Option<string>,
    employeeSpecialNotes: Option<string>,
    employeeColorCode: Option<string>,
    specialNotes: Option<string>,
    colorCode: Option<string>)

  /** The columns the INSERT returns; the password column is not among them. */
  datatype NewUser = NewUser(
    id: int,
    userId: string,
    name: string,
    specialNotes: Option<string>,
    colorCode: Option<string>)

  datatype RegisterResult =
    | Registered(user: NewUser, after: Table)
    | RegisterRejected(status: int, message: string)

  const DefaultRole := "一般"
  const DefaultLine := "未設定"

  const MissingFields := "必須項目 (employee_user_id, password, employee_name) が不足しています。"
  const DuplicateUserId := "そのユーザーIDは既に使用されています。"
  const BadColor := "color_code は 6桁の16進数 (例: FF0000 または #FF0000) を指定してください。"

  predicate IsHexDigit(c: char)
  {
    ('0' <= c <= '9') || ('a' <= c <= 'f') || ('A' <= c <= 'F')
  }

  /** The character class `[0-9a-fA-F]` written out. */
  const HexDigits := "0123456789" + "abcdef" + "ABCDEF"

  /** `/^[0-9a-fA-F]{6}$/.test(s)`. */
  predicate IsHexColor(s: string)
    ensures IsHexColor(s) <==> |s| == 6 && forall i | 0 <= i < 6 :: s[i] in HexDigits
    ensures IsHexColor(s) ==> !StartsWith(s, "#")
  {
    assert StartsWith(s, "#") ==> s[0] == s[..1][0] == '#';
    |s| == 6 && forall i | 0 <= i < 6 :: IsHexDigit(s[i])
  }

  datatype ColorCheck = ColorAccepted(stored: Option<string>) | ColorRejected

  /** A falsy colour is stored as given. A truthy one loses at most one
      leading `#` and must then be six hex digits. */
  function CheckColor(c: Option<string>): (r: ColorCheck)
    ensures !Truthy(c) ==> r == ColorAccepted(c)
    ensures Truthy(c) ==>
      (r.ColorAccepted? <==> IsHexColor(c.value) || (StartsWith(c.value, "#") && IsHexColor(c.value[1..])))
    ensures r.ColorAccepted? && Truthy(c) ==>
      r.stored.Some? && IsHexColor(r.stored.value) && (c.value == r.stored.value || c.value == "#" + r.stored.value)
    ensures r.ColorAccepted? && r.stored.Some? ==> !StartsWith(r.stored.value, "#")
  {
    if Truthy(c) then
      var v := if StartsWith(c.value, "#") then c.value[1..] else c.value;
      assert StartsWith(c.value, "#") ==> !IsHexColor(c.value) by {
        if StartsWith(c.value, "#") {
          assert c.value[0] == "#"[0];
        }
      }
      assert IsHexColor(v) ==> !StartsWith(v, "#");
      if IsHexColor(v) then ColorAccepted(Some(v)) else ColorRejected
    else
      ColorAccepted(c)
  }

  /** A normalised colour passes the check again unchanged. */
  lemma CheckColorIdempotent(c: Option<string>)
    requires CheckColor(c).ColorAccepted?
    ensures CheckColor(CheckColor(c).stored) == CheckColor(c)
  {
  }

  /** `employee_special_notes ?? special_notes ?? null`. */
  function NotesOf(req: RegisterRequest): Option<string>
  {
    Coalesce(req.employeeSpecialNotes, req.specialNotes)
  }

  /** `employee_color_code ?? color_code ?? null`. */
  function ColorOf(req: RegisterRequest): Option<string>
  {
    Coalesce(req.employeeColorCode, req.colorCode)
  }

  predicate HasRequired(req: RegisterRequest)
  {
    Truthy(req.employeeUserId) && Truthy(req.password) && Truthy(req.employeeName)
  }

  /** The handler; `hash` stands for `bcrypt.hash(·, 10)`, salt included. */
  function Register(t: Table, req: RegisterRequest, hash: string -> string): (r: RegisterResult)
    ensures !HasRequired(req) <==> r == RegisterRejected(400, MissingFields)
    ensures HasRequired(req) && FindByUserId(t.rows, req.employeeUserId.value).Some?
      ==> r == RegisterRejected(409, DuplicateUserId)
    ensures HasRequired(req) && FindByUserId(t.rows, req.employeeUserId.value).None? && CheckColor(ColorOf(req)).ColorRejected?
      ==> r == RegisterRejected(400, BadColor)
    ensures r.Registered? <==>
      HasRequired(req) && FindByUserId(t.rows, req.employeeUserId.value).None? && CheckColor(ColorOf(req)).ColorAccepted?
    ensures r.Registered? ==>
      && |r.after.rows| == |t.rows| + 1
      && r.after.rows[..|t.rows|] == t.rows
      && r.after.nextId == t.nextId + 1
      && r.after.activeByDefault == t.activeByDefault
      && var e := r.after.rows[|t.rows|];
      && e.id == t.nextId && e.userId == req.employeeUserId.value && e.name == req.employeeName.value
      && e.password == Some(hash(req.password.value))
      && e.roleName == Some(Or(req.employeeRoleName, DefaultRole))
      && e.lineName == Some(Or(req.employeeLineName, DefaultLine))
      && e.specialNotes == NotesOf(req)
      && e.colorCode == CheckColor(ColorOf(req)).stored
      && e.isActive == t.activeByDefault
      && r.user == NewUser(e.id, e.userId, e.name, e.specialNotes, e.colorCode)
  {
    if !HasRequired(req) then RegisterRejected(400, MissingFields)
    else if FindByUserId(t.rows, req.employeeUserId.value).Some? then RegisterRejected(409, DuplicateUserId)
    else
      var hashed := hash(req.password.value);
      match CheckColor(ColorOf(req))
      case ColorRejected => RegisterRejected(400, BadColor)
      case ColorAccepted(color) =>
        var e := Employee(
          t.nextId, req.employeeUserId.value, Some(hashed), req.employeeName.value,
          Some(Or(req.employeeRoleName, DefaultRole)), Some(Or(req.employeeLineName, DefaultLine)),
          NotesOf(req), color, t.activeByDefault);
        Registered(NewUser(e.id, e.userId, e.name, e.specialNotes, e.colorCode), Table(t.rows + [e], t.nextId + 1, t.activeByDefault))
  }

  /** Registration keeps ids and user ids unique. */
  lemma RegisterPreservesValid(t: Table, req: RegisterRequest, hash: string -> string)
    requires Valid(t)
    ensures Register(t, req, hash).Registered? ==> Valid(Register(t, req, hash).after)
  {
    var r := Register(t, req, hash);
    if r.Registered? {
      var rows := r.after.rows;
      assert forall i | 0 <= i < |t.rows| :: rows[i] == t.rows[i];
    }
  }

  /** The primary key wins whenever it is present, even as ""; the alias is
      then ignored entirely. */
  lemma PrimaryKeysShadowAliases(t: Table, req: RegisterRequest, hash: string -> string, notes: Option<string>, color: Option<string>)
    requires req.employeeSpecialNotes.Some? && req.employeeColorCode.Some?
    ensures Register(t, req, hash) == Register(t, req.(specialNotes := notes, colorCode := color), hash)
  {
  }

  /** An empty primary colour is stored as "" even when the alias holds a
      valid colour. */
  lemma EmptyPrimaryColorKept(t: Table, req: RegisterRequest, hash: string -> string)
    requires req.employeeColorCode == Some("") && req.colorCode == Some("FF0000")
    requires Register(t, req, hash).Registered?
    ensures Register(t, req, hash).user.colorCode == Some("")
  {
  }

  /** "#a1B2c3" and "a1B2c3" are the same colour to the route. */
  lemma HashPrefixOptional(h: string)
    requires IsHexColor(h)
    ensures CheckColor(Some("#" + h)) == CheckColor(Some(h)) == ColorAccepted(Some(h))
  {
    assert ("#" + h)[1..] == h;
  }
}

=== FILE: slot_move.dfy ===
/** `POST /api/racks/move`: move the part in one slot to another slot,
    inside one BEGIN … COMMIT unit of work that is rolled back on any
    thrown error. */
module SlotMove {
  import opened JsValues

  /** The unique key of a `slots` row: `(rack_id, slot_identifier)`. */
  datatype SlotKey = SlotKey(rackId: int, slot: string)

  /** The payload columns of a `slots` row. */
  datatype SlotRow = SlotRow(
    partName: Option<string>,
    modelNumber: Option<string>,
    quantity: Option<int>,
    colorCode: Option<string>)

  /** A row whose four payload columns are all NULL. */
  const Cleared := SlotRow(None, None, None, None)

  /** A row counts as holding a part when its `part_name` is truthy. */
  predicate HoldsPart(row: SlotRow)
  {
    Truthy(row.partName)
  }

  /** The two tables the move touches: the ids of the `racks` table and the
      `slots` table keyed by its unique `(rack_id, slot_identifier)`. */
  datatype Store = Store(rackIds: set<int>, slots: map<SlotKey, SlotRow>)

  /** The foreign key `slots.rack_id → racks.rack_id`. */
  ghost predicate Consistent(s: Store)
  {
    forall k | k in s.slots :: k.rackId in s.rackIds
  }

  /** The keys whose rows hold a part. */
  ghost function Occupied(s: Store): set<SlotKey>
  {
    set k | k in s.slots && HoldsPart(s.slots[k])
  }

  /** The JSON body of the request. */
  datatype MoveRequest = MoveRequest(
    fromRackId: Option<int>,
    fromSlot: Option<string>,
    toRackId: Option<int>,
    toSlot: Option<string>)

  /** All four identifiers are truthy. */
  predicate Complete(req: MoveRequest)
  {
    TruthyInt(req.fromRackId) && Truthy(req.fromSlot) && TruthyInt(req.toRackId) && Truthy(req.toSlot)
  }

  function Source(req: MoveRequest): SlotKey
    requires Complete(req)
  {
    SlotKey(req.fromRackId.value, req.fromSlot.value)
  }

  function Destination(req: MoveRequest): SlotKey
    requires Complete(req)
  {
    SlotKey(req.toRackId.value, req.toSlot.value)
  }

  /** An error object as the catch block sees it: `error.code`, `error.message`. */
  datatype Thrown = Thrown(code: Option<string>, message: string)

  /** The statements the handler sends to the database, in order. */
  datatype Statement = Begin | SelectSource | SelectDestination | WriteDestination | ClearSource | Commit

  /** Which statement, if any, the database fails, and with what error. */
  datatype Fault = NoFault | FailAt(at: Statement, error: Thrown)

  predicate FailsAt(fault: Fault, st: Statement)
  {
    fault.FailAt? && fault.at == st
  }

  const ForeignKeyViolation := "23503"
  const ForeignKeyText := "insert or update on table \"slots\" violates foreign key constraint"

  const MissingFields := "必須項目が不足しています。"
  const SameSlot := "移動元と移動先を同じにすることはできません。"
  const SourceNotFound := "移動元のスロットが見つかりません。"
  const SourceEmpty := "移動元のスロットは空です。"
  const DestinationOccupied := "移動先のスロットには既に別の部品があります。"
  const DestinationRackMissing := "移動先の棚（rack_id）が存在しません。"
  const InternalError := "サーバー内部でエラーが発生しました。"

  /** The outcome of the statements between BEGIN and COMMIT. */
  datatype Attempt = Committed(store: Store) | Threw(error: Thrown)

  /** The unit of work: read the source, read the destination, write the
      destination (UPDATE of an existing row, INSERT otherwise), clear the
      source, commit. A thrown error abandons the working copy. */
  function Transaction(s: Store, from: SlotKey, to: SlotKey, fault: Fault): (a: Attempt)
    ensures a.Committed? ==>
      && from in s.slots && HoldsPart(s.slots[from])
      && (to in s.slots ==> !HoldsPart(s.slots[to]))
      && (to !in s.slots ==> to.rackId in s.rackIds)
    ensures a.Committed? ==> fault == NoFault
  {
    if FailsAt(fault, Begin) || FailsAt(fault, SelectSource) then Threw(fault.error)
    else if from !in s.slots then Threw(Thrown(None, SourceNotFound))
    else if !HoldsPart(s.slots[from]) then Threw(Thrown(None, SourceEmpty))
    else if FailsAt(fault, SelectDestination) then Threw(fault.error)
    else if to in s.slots && HoldsPart(s.slots[to]) then Threw(Thrown(None, DestinationOccupied))
    else if FailsAt(fault, WriteDestination) then Threw(fault.error)
    else if to !in s.slots && to.rackId !in s.rackIds then Threw(Thrown(Some(ForeignKeyViolation), ForeignKeyText))
    else
      var written := s.slots[to := s.slots[from]];
      if FailsAt(fault, ClearSource) then Threw(fault.error)
      else
        var cleared := written[from := Cleared];
        if FailsAt(fault, Commit) then Threw(fault.error)
        else Committed(Store(s.rackIds, cleared))
  }

  /** The status the catch block chooses: 404 for a foreign-key violation,
      otherwise by what the message mentions, 500 when it mentions nothing. */
  function StatusFor(e: Thrown): (r: int)
    ensures r == 404 || r == 409 || r == 500
    ensures r == 404 <==> e.code == Some(ForeignKeyViolation) || Contains(e.message, "見つかりません")
    ensures r == 500 <==>
      && e.code != Some(ForeignKeyViolation)
      && !Contains(e.message, "見つかりません")
      && !Contains(e.message, "空です")
      && !Contains(e.message, "既に別の部品があります")
  {
    if e.code == Some(ForeignKeyViolation) then 404
    else if Contains(e.message, "見つかりません") then 404
    else if Contains(e.message, "空です") || Contains(e.message, "既に別の部品があります") then 409
    else 500
  }

  /** The message the catch block answers with: never empty, the fixed
      rack text for a foreign-key violation, otherwise the thrown one. */
  function MessageFor(e: Thrown): (r: string)
    ensures r != ""
    ensures e.code == Some(ForeignKeyViolation) ==> r == DestinationRackMissing
    ensures e.code != Some(ForeignKeyViolation) && e.message != "" ==> r == e.message
    ensures e.code != Some(ForeignKeyViolation) && e.message == "" ==> r == InternalError
  {
    if e.code == Some(ForeignKeyViolation) then DestinationRackMissing
    else if e.message != "" then e.message
    else InternalError
  }

  datatype Response = Response(status: int, message: string)

  /** The response and the committed state of the tables. */
  datatype MoveResult = MoveResult(response: Response, store: Store)

  function MovedMessage(from: string, to: string): string
  {
    "部品を " + from + " から " + to + " へ移動しました。"
  }

  /** The handler. Every response other than 200 leaves the tables as they
      were; a 200 moves the four payload columns and changes nothing else. */
  function Move(s: Store, req: MoveRequest, fault: Fault): (r: MoveResult)
    ensures r.response.status != 200 ==> r.store == s
    ensures !Complete(req) ==> r.response == Response(400, MissingFields)
    ensures Complete(req) && Source(req) == Destination(req) ==> r.response == Response(400, SameSlot)
    ensures r.response.status == 200 ==>
      && Complete(req) && Source(req) != Destination(req)
      && var from, to := Source(req), Destination(req);
      && from in s.slots && HoldsPart(s.slots[from])
      && to in r.store.slots && r.store.slots[to] == s.slots[from]
      && from in r.store.slots && r.store.slots[from] == Cleared
      && r.store.slots.Keys == s.slots.Keys + {to}
      && (forall k | k in s.slots && k != from && k != to :: r.store.slots[k] == s.slots[k])
      && r.store.rackIds == s.rackIds
  {
    if !Complete(req) then MoveResult(Response(400, MissingFields), s)
    else if Source(req) == Destination(req) then MoveResult(Response(400, SameSlot), s)
    else
      match Transaction(s, Source(req), Destination(req), fault)
      case Committed(after) => MoveResult(Response(200, MovedMessage(req.fromSlot.value, req.toSlot.value)), after)
      case Threw(e) => MoveResult(Response(StatusFor(e), MessageFor(e)), s)
  }

  /** The three messages the handler throws itself are classified as the
      handler means them to be. */
  lemma ThrownMessagesClassified()
    ensures StatusFor(Thrown(None, SourceNotFound)) == 404
    ensures StatusFor(Thrown(None, SourceEmpty)) == 409
    ensures StatusFor(Thrown(None, DestinationOccupied)) == 409
  {
    assert OccursAt(SourceNotFound, "見つかりません", 9);
    NotContainsWithoutChar(SourceEmpty, "見つかりません", 0);
    assert OccursAt(SourceEmpty, "空です", 9);
    NotContainsWithoutChar(DestinationOccupied, "見つかりません", 0);
    assert OccursAt(DestinationOccupied, "既に別の部品があります", 10);
  }

  /** With no database fault, the first failing check decides the response:
      source missing, then source empty, then destination occupied, then
      the destination rack missing. Each leaves the tables unchanged. */
  lemma MoveErrorPrecedence(s: Store, req: MoveRequest)
    requires Complete(req) && Source(req) != Destination(req)
    ensures var r := Move(s, req, NoFault);
      var from, to := Source(req), Destination(req);
      && (from !in s.slots ==> r == MoveResult(Response(404, SourceNotFound), s))
      && (from in s.slots && !HoldsPart(s.slots[from]) ==> r == MoveResult(Response(409, SourceEmpty), s))
      && (from in s.slots && HoldsPart(s.slots[from]) && to in s.slots && HoldsPart(s.slots[to])
          ==> r == MoveResult(Response(409, DestinationOccupied), s))
      && (from in s.slots && HoldsPart(s.slots[from]) && to !in s.slots && to.rackId !in s.rackIds
          ==> r == MoveResult(Response(404, DestinationRackMissing), s))
  {
    ThrownMessagesClassified();
  }

  /** Without a database fault the move succeeds exactly when the request is
      complete, names two different slots, the source holds a part, and the
      destination is either an existing empty row or a key in a known rack. */
  lemma MoveSucceedsIff(s: Store, req: MoveRequest)
    ensures Move(s, req, NoFault).response.status == 200 <==>
      && Complete(req) && Source(req) != Destination(req)
      && Source(req) in s.slots && HoldsPart(s.slots[Source(req)])
      && (Destination(req) in s.slots ==> !HoldsPart(s.slots[Destination(req)]))
      && (Destination(req) !in s.slots ==> Destination(req).rackId in s.rackIds)
  {
    if Complete(req) && Source(req) != Destination(req) {
      ThrownMessagesClassified();
      assert StatusFor(Thrown(Some(ForeignKeyViolation), ForeignKeyText)) == 404;
    }
  }

  /** A move into the same rack is allowed when the slots differ. */
  lemma SameRackOtherSlotAllowed(s: Store, rack: int, a: string, b: string)
    requires Consistent(s)
    requires rack != 0 && a != "" && b != "" && a != b
    requires SlotKey(rack, a) in s.slots && HoldsPart(s.slots[SlotKey(rack, a)])
    requires SlotKey(rack, b) in s.slots ==> !HoldsPart(s.slots[SlotKey(rack, b)])
    ensures Move(s, MoveRequest(Some(rack), Some(a), Some(rack), Some(b)), NoFault).response.status == 200
  {
    MoveSucceedsIff(s, MoveRequest(Some(rack), Some(a), Some(rack), Some(b)));
  }

  /** A move keeps the foreign key intact: an INSERT only happens for a
      known rack. */
  lemma MovePreservesConsistent(s: Store, req: MoveRequest, fault: Fault)
    requires Consistent(s)
    ensures Consistent(Move(s, req, fault).store)
  {
  }

  /** Slot exclusivity: a successful move takes the part out of the source
      and puts it into the destination, so the occupied keys trade the
      source for the destination and their number stays the same. */
  lemma MoveKeepsOccupancy(s: Store, req: MoveRequest, fault: Fault)
    requires Move(s, req, fault).response.status == 200
    ensures var after := Move(s, req, fault).store;
      && Occupied(after) == Occupied(s) - {Source(req)} + {Destination(req)}
      && |Occupied(after)| == |Occupied(s)|
  {
    var after := Move(s, req, fault).store;
    var from, to := Source(req), Destination(req);
    assert Occupied(after) == Occupied(s) - {from} + {to} by {
      forall k | k in Occupied(after)
        ensures k in Occupied(s) - {from} + {to}
      {
        if k != to {
          assert k != from;
          assert after.slots[k] == s.slots[k];
        }
      }
      forall k | k in Occupied(s) - {from} + {to}
        ensures k in Occupied(after)
      {
      }
    }
    var rest := Occupied(s) - {from};
    assert to !in rest;
    assert |rest| == |Occupied(s)| - 1;
  }

  /** Moving the part back again restores every row, except that the
      former destination is now a cleared row. */
  lemma MoveBackRestores(s: Store, req: MoveRequest, fault: Fault)
    requires Move(s, req, fault).response.status == 200
    ensures var there := Move(s, req, fault).store;
      var back := MoveRequest(req.toRackId, req.toSlot, req.fromRackId, req.fromSlot);
      var r := Move(there, back, NoFault);
      && r.response.status == 200
      && r.store == Store(s.rackIds, s.slots[Destination(req) := Cleared])
  {
    var there := Move(s, req, fault).store;
    var back := MoveRequest(req.toRackId, req.toSlot, req.fromRackId, req.fromSlot);
    MoveSucceedsIff(there, back);
    var r := Move(there, back, NoFault);
    var from, to := Source(req), Destination(req);
    var expected := s.slots[to := Cleared];
    assert r.store.slots.Keys == expected.Keys;
    forall k | k in expected
      ensures r.store.slots[k] == expected[k]
    {
    }
  }

  /** A fault injected into the destination write leaves the source row
      exactly as it was, and the destination untouched. */
  lemma FailedWriteKeepsSource(s: Store, req: MoveRequest, e: Thrown)
    requires Complete(req) && Source(req) in s.slots
    ensures var r := Move(s, req, FailAt(WriteDestination, e));
      && r.store.slots[Source(req)] == s.slots[Source(req)]
      && (Destination(req) in s.slots <==> Destination(req) in r.store.slots)
      && r.response.status != 200
  {
  }

  /** Whichever statement the database fails, the handler rolls back and
      answers with an error. */
  lemma AnyFaultRollsBack(s: Store, req: MoveRequest, fault: Fault)
    requires fault.FailAt?
    ensures Move(s, req, fault).response.status != 200
    ensures Move(s, req, fault).store == s
  {
  }

  /** A fault in a move that would otherwise succeed is answered exactly as
      the catch block classifies the thrown error, after the rollback. */
  lemma FaultClassified(s: Store, req: MoveRequest, fault: Fault)
    requires fault.FailAt?
    requires Move(s, req, NoFault).response.status == 200
    ensures Move(s, req, fault) == MoveResult(Response(StatusFor(fault.error), MessageFor(fault.error)), s)
  {
  }

  /** Moving the part of A-1 (Widget, 5) into an absent A-2 of the same rack. */
  lemma WidgetExample()
    ensures var a1, a2 := SlotKey(1, "A-1"), SlotKey(1, "A-2");
      var widget := SlotRow(Some("Widget"), Some("W-1"), Some(5), Some("FF0000"));
      var s := Store({1}, map[a1 := widget]);
      var r := Move(s, MoveRequest(Some(1), Some("A-1"), Some(1), Some("A-2")), NoFault);
      && r.response.status == 200
      && r.store.slots == map[a1 := Cleared, a2 := widget]
  {
    var a1, a2 := SlotKey(1, "A-1"), SlotKey(1, "A-2");
    var widget := SlotRow(Some("Widget"), Some("W-1"), Some(5), Some("FF0000"));
    var s := Store({1}, map[a1 := widget]);
    var r := Move(s, MoveRequest(Some(1), Some("A-1"), Some(1), Some("A-2")), NoFault);
    assert r.store.slots == map[a1 := Cleared, a2 := widget];
  }
}
